=== FILE: README.md ===
# process-tickets, modelled in Dafny

The service has two request handlers. `process_ticket` takes an Airtable
record id. It fetches the record and downloads its PDF attachment. It
concatenates the PDF's page text and asks a language model for ten ticket
fields. It strips the Markdown fence off the model's reply, decodes it as
JSON, turns whitespace-only values into nulls and writes the fields back to
the record. `split_and_upload_pdf` takes a multi-page PDF. It uploads every
page to S3 under a fresh name and creates one Airtable row per page. It
returns the pages whose row was created.

The model keeps the deterministic logic and turns every external service
into an input. The input is the status the service answered, the text it
returned, or whether the call raised.

- `wrappers.dfy`, module `Wrappers`: `Option` and `Result`.
- `pystr.dfy`, module `PyStr`: Python's `str.isspace`, `strip()`,
  `startswith` and `endswith`, plus `str(n)` for `n >= 0`. `Strip` is
  characterised independently of how it is computed (`StripSurrounded`).
  `Decimal` is proved injective by a round trip through `DecimalValue`.
- `reply.dfy`, module `Reply`: `clean_openai_response`. The result is always
  a piece of the reply. It is the reply itself when there is no fence. A
  fenced body comes back out, whether the fence is "```json" or a bare "```".
- `fields.dfy`, module `Fields`: decoded JSON values, Python truthiness and
  `sanitize_fields`.
- `pdf_text.dfy`, module `PdfText`: the page-text loop, as a method, proved
  equal to a recursive reference definition, with lemmas about that definition.
- `ticket.dfy`, module `Ticket`: `process_ticket` as a pure function. It
  returns the HTTP response and the ordered trace of external calls issued
  (fetch, download, model request, update). The trace is what lets a
  contract say that nothing was fetched or that no update was written. The
  handler is split into stages, one per step, each stating every return
  from its step on and when the next step's call is issued; three lemmas
  carry the stages' facts up to the handler.
  An error response carries the handler's message for it.
- `split_upload.dfy`, module `SplitUpload`: the per-page loop of
  `split_and_upload_pdf` as a method. It returns the S3 uploads attempted, the
  Airtable rows posted and how the call ended.

Three behaviours of the code are easy to overlook, and the model keeps them:

- `s3.upload_file` is not wrapped in a handler (split_and_upload.py:55), so
  an upload exception ends the whole call, after the pages before it have
  been uploaded and posted. `SplitAndUpload` models this as the `Raised`
  ending.
- An undecodable model reply degrades to `{}` and is still written back. A
  reply that decodes to JSON that is not an object (a list, a string, a
  number) makes `sanitize_fields` call `.items()` on a non-dict. The handler
  does not catch that, so Flask answers 500 and no update is written.
  `Ticket.WriteBack` answers `Unhandled(NotAnObject)` with no call in that
  case, and `Ticket.ModelReturns` carries this up to the handler.
- Two more shapes raise uncaught exceptions, and both are modelled as a 500
  without a message: an `Attachment` value that is truthy but not a list
  whose first element is an object, and downloaded bytes that `pdfplumber`
  cannot open.

## Model

| member | source | states |
|---|---|---|
| PyStr.IsSpace | app.py:33 | The characters `str.isspace()` accepts, which are the ones argument-less `strip()` removes: the ASCII controls 9-13 and 28-31, the space, U+0085, U+00A0, U+1680, U+2000-U+200A, U+2028, U+2029, U+202F, U+205F and U+3000 (definition, no contract) |
| PyStr.StartsWith | app.py:22-24 | `s.startswith(prefix)`: the prefix is no longer than `s` and equals its first characters (definition, no contract) |
| PyStr.EndsWith | app.py:26 | `s.endswith(suffix)`: the suffix is no longer than `s` and equals its last characters (definition, no contract) |
| PyStr.TrimStart | app.py:33 | Leading whitespace removal leaves a suffix that does not start with whitespace, and everything removed was whitespace |
| PyStr.TrimEnd | app.py:33 | Trailing whitespace removal leaves a prefix that does not end with whitespace, and everything removed was whitespace |
| PyStr.Strip | app.py:33 | `strip()` returns a contiguous piece of its input with no surrounding whitespace, left by cutting whitespace off both ends; the result is empty exactly when the input is all whitespace |
| PyStr.StripTrims | app.py:33 | What `strip()` returns is its input with a whitespace-only prefix and a whitespace-only suffix cut off |
| PyStr.StripUnique | app.py:33 | Any stripped string left by cutting whitespace off both ends of the input is exactly what `strip()` returns, so the two properties above pin the result down |
| PyStr.StripSurrounded | app.py:22-27 | For any whitespace `a` and `b` and any stripped `x`, `(a + x + b).strip() == x` |
| PyStr.StripIdempotent | app.py:22-27 | Stripping twice is stripping once |
| PyStr.Decimal | split_and_upload.py:70 | `str(n)` is a non-empty run of decimal digits with no leading zero unless `n` is 0 |
| PyStr.DecimalRoundTrip | split_and_upload.py:70 | Reading the digits of `str(n)` back gives `n` |
| PyStr.DecimalInjective | split_and_upload.py:70 | Distinct page numbers print as distinct digit strings |
| Reply.DropOpening | app.py:22-25 | An opening-fence step returns a piece of its input. If the fence was there, the result is the text after the fence with the whitespace on both sides cut off; otherwise it is the input itself |
| Reply.DropClosing | app.py:26-27 | The closing-fence step returns a piece of its input. If it ended with a fence, the result is the text before the fence with the whitespace on both sides cut off; otherwise it is the input itself |
| Reply.CleanReply | app.py:21-28 | The cleaned reply is a contiguous piece of the reply, so never longer. A reply that neither starts nor ends with "```" is returned unchanged. One that does is returned without surrounding whitespace |
| Reply.CleanJsonFenced | app.py:21-28 | "```json" + whitespace + body + whitespace + "```" cleans back to the body, for every stripped body not starting with a backtick |
| Reply.CleanBareFenced | app.py:21-28 | "```" + whitespace + body + whitespace + "```" cleans back to the body, for every stripped body not starting with a backtick, whenever the reply does not open with "```json" |
| Reply.JsonTagNotLeftOver | app.py:22-27 | The "```json" prefix is tried before the bare one, so "```json\n{"a":1}\n```" cleans to `{"a":1}` with no `json` left over |
| Fields.Truthy | app.py:43-68 | Python truthiness of a decoded JSON value, as `if not record_id` and `if not attachments` test it: null, false, zero, the empty string, the empty list and the empty object are false, everything else true (definition, no contract) |
| Fields.Sanitize | app.py:30-37 | Sanitising keeps exactly the input's keys. Every whitespace-only string becomes null. Every other value, including null and non-strings, is kept. No blank string survives |
| Fields.SanitizeIdempotent | app.py:30-37 | Sanitising an already sanitised map changes nothing |
| Fields.SanitizeFixpoints | app.py:30-37 | Sanitising leaves a map unchanged exactly when none of its values is a whitespace-only string |
| PdfText.ConcatPages | app.py:79-84 | The reference definition of the extracted text: the pages in order, each page whose text is present and non-empty contributing that text and a newline, the others nothing (definition, no contract; the lemmas below are about it) |
| PdfText.ExtractText | app.py:79-84 | The loop's text is the in-order concatenation of `t + "\n"` over pages whose text `t` is present and non-empty. It is empty exactly when no page has text, and otherwise ends with a newline |
| PdfText.ConcatAppend | app.py:81-84 | The text of two runs of pages is the text of the first followed by the text of the second |
| PdfText.ConcatFromFront | app.py:81-84 | Read from the front, the text is the first page's segment followed by the text of the rest |
| PdfText.ConcatEmptyIff | app.py:81-84 | The text is empty if and only if no page has non-empty text |
| PdfText.ConcatEndsWithNewline | app.py:81-84 | Non-empty text ends with a newline |
| Ticket.FirstUrl | app.py:70 | `attachments[0].get("url")`: the `url` member of the first element, `None` when absent; the expression raises, modelled as no URL, when the attachment value is not a non-empty list whose first element is an object (definition, no contract) |
| Ticket.ReplyForDecoding | app.py:133-139 | The text `json.loads` is given: the model's message stripped, then passed through the fence removal (definition, no contract) |
| Ticket.StructuredData | app.py:140-143 | `structured_data`: the decoded value, or the empty object when decoding raised `JSONDecodeError` (definition, no contract) |
| Ticket.FailureStatus | app.py:44-164 | The handler answers its own errors with 400 exactly for the missing record id and the missing attachment, and with 500 for the fetch, download, model and update errors |
| Ticket.ErrorMessage | app.py:61-164 | The fetch, model and update error messages end with the detail the failing service reported. Every error response the handler builds carries the message of its failure |
| Ticket.WriteBack | app.py:138-166 | A cleaned reply that decodes to an object is sanitised and written back as the only call; an undecodable one is written back as `{}`. The result is 200 exactly when the PATCH answered 200, and otherwise the update error with the PATCH text. A reply that decodes to anything else gives a 500 with no call. A 200 returns exactly the fields written |
| Ticket.AskModel | app.py:86-166 | The model is asked first, with the record's "Ticket Text" (default "") and the concatenated page text. An exception from the model ends the request with the inference error and no update. Otherwise the sanitised decoded reply is written back, with the same PATCH and non-object outcomes. A 200 needs a writable reply and a 200 PATCH, and returns the fields written |
| Ticket.FromUrl | app.py:72-166 | The download is the first call. A download that does not answer 200 ends the request with the download error, and bytes that are not a PDF with a 500; the model is asked exactly when neither happened, with the concatenated page text. The model, decode and update outcomes follow as for `AskModel` |
| Ticket.FromRecord | app.py:63-166 | A missing or falsy `Attachment` gives 400 with no call, and one whose first element is not an object a 500 with no call. Otherwise the attachment's URL is downloaded, the model is asked exactly when the download answered 200 with a PDF, and the download, inference, non-object and update failures end the request where they occur. The update carries the record id and the sanitised decoded reply. A 200 needs every step to have gone well and returns the fields written |
| Ticket.ProcessTicket | app.py:40-166 | A falsy `recordId` gives 400 before any call. Otherwise the record is fetched first; a fetch that does not answer 200 ends the request with the fetch error, and a record without attachment gives 400, both after the fetch only. Calls follow fetch, download, ask, update. Status is 200, 400 or 500, and 400 exactly when the record id is falsy or the fetched record has no attachment. Every error response carries its own status and message |
| Ticket.LaterReturns | app.py:63-84 | The attachment's URL is downloaded exactly when the record id is truthy, the fetch answered 200 and the attachment is usable. An attachment whose first element is not an object gives a 500 after the fetch only. A download that does not answer 200 ends the request with the download error, and bytes that are not a PDF with a 500, in both cases before the model is asked. The model is asked exactly when the download also answered 200 with a PDF, with the record's ticket text and the concatenated page text |
| Ticket.ModelReturns | app.py:127-166 | Once the model has been asked: an exception from it ends the request with the inference error and no update. A reply that decodes to something other than an object gives a 500 and no update. Otherwise the sanitised decoded reply is written back (`{}` for an undecodable one), the result is 200 exactly when the PATCH answered 200, and otherwise the update error with the PATCH text |
| Ticket.SucceedsExactly | app.py:40-166 | The handler answers 200 exactly when the record id is truthy, the fetch answered 200, the record has a usable attachment, the download answered 200 with a PDF, the model answered with a reply that decodes to an object or not at all, and the PATCH answered 200. It then returns the sanitised decoded reply, which is the update's fields |
| SplitUpload.ObjectKey | split_and_upload.py:54 | The S3 key of a page: a fresh UUID followed by `.pdf` (definition, no contract) |
| SplitUpload.ObjectUrl | split_and_upload.py:58 | The public URL recorded for a key: `https://{bucket}.s3.amazonaws.com/{key}` (definition, no contract) |
| SplitUpload.AttachmentName | split_and_upload.py:70 | The attachment file name of page n: `ticket-page-{n}.pdf`, with n in decimal (definition, no contract; `AttachmentNamesDistinct` is about it) |
| SplitUpload.SplitAndUpload | split_and_upload.py:38-97 | Pages are visited in order. Each upload uses the key its URL is built from. Rows carry page numbers 1..N densely, `ticket-page-{n}.pdf` and the page's own UUID. An upload exception ends the call at the first failing page. A normal return reports success, even for N = 0. `processed_count` equals the number of tickets, at most N. There is a ticket exactly for the status-200 pages, in increasing page order, each with the URL its row recorded |
| SplitUpload.VisitPages | split_and_upload.py:45-96 | The loop visits the pages in order and builds the uploads and rows as described above. It stops at an upload exactly when some upload raises, at the first one that does. A loop that runs through covers every page and collects exactly the tickets of the status-200 pages |
| SplitUpload.Recorded | split_and_upload.py:45-88 | The reference definition of the ticket list: the pages in order, each page whose POST answered 200 contributing its 1-based number and its object URL (definition, no contract; the lemmas below are about it) |
| SplitUpload.RecordedPages | split_and_upload.py:84-88 | Every ticket names a page in 1..N whose POST answered 200, with that page's object URL |
| SplitUpload.RecordedOrdered | split_and_upload.py:45-85 | Ticket page numbers are strictly increasing |
| SplitUpload.RecordedComplete | split_and_upload.py:84-88 | Every page whose POST answered 200 has a ticket |
| SplitUpload.TicketsMatchRows | split_and_upload.py:54-96 | For rows built as the loop builds them, each ticket's URL is the URL its row recorded, and the ticket list is faithful and no longer than the page list |
| SplitUpload.AttachmentNamesDistinct | split_and_upload.py:65-70 | Rows for different pages carry different attachment file names |

## Left out

- Flask routing, request parsing, the upload form and response formatting.
  `upload_pdf` and the JSON serialisation of responses are framework
  plumbing (app.py:9-11, 172-203). The request body is taken as an
  already decoded JSON object.
- Every network call is an input: the Airtable GET, PATCH and POST, the
  attachment download, the OpenAI completion and the S3 upload. Exceptions
  raised by `requests` itself, such as connection errors or an unusable
  URL, are not modelled. Statuses are plain integers.
- PDF parsing and splitting (`pdfplumber`, `fitz`) are foreign libraries. The
  model takes the per-page text sequence and the page count as inputs.
- `json.loads` is the parameter `decode`. JSON syntax is not modelled. JSON
  numbers are Dafny reals, and dictionary key order is not modelled.
- The prompt text, `urllib.parse.quote`, the table-name coercion
  (app.py:46-52) and the model's sampling settings are fixed strings and
  library calls with nothing to prove.
- Environment loading, validation and S3 client setup are configuration
  I/O (app.py:15-19, split_and_upload.py:9-36).
- `uuid.uuid4()` is replaced by tokens supplied per page. Their uniqueness
  is the library's promise and is not modelled.
- Temporary-file creation and deletion are left out, as are the log lines
  the code prints.
- Ticket.ProcessTicket: the Airtable record is assumed to be an object whose
  `fields` member, when present, is an object. An absent `fields` reads as
  the empty map, as `record.get("fields", {})` does.

=== FILE: fields.dfy ===
/**
 JSON values as the service sees them after `json.loads`, Python truthiness,
 and the write-back sanitisation of extracted fields (`sanitize_fields` in app.py).
 */
module Fields {
  import opened PyStr

  /** A decoded JSON value; objects are Python dicts keyed by strings. */
  datatype Value =
    | Null
    | Bool(b: bool)
    | Number(n: real)
    | Str(s: string)
    | Array(items: seq<Value>)
    | Object(members: map<string, Value>)

  /** Python's truth value of a decoded JSON value (`if v:`). */
  predicate Truthy(v: Value) {
    match v
    case Null => false
    case Bool(b) => b
    case Number(n) => n != 0.0
    case Str(s) => s != ""
    case Array(items) => items != []
    case Object(members) => members != map[]
  }

  /** `d.get(key, default)`. */
  function Get(d: map<string, Value>, key: string, default: Value): Value {
    if key in d then d[key] else default
  }

  /** A value that reads as "missing": a string made only of whitespace. */
  predicate Blank(v: Value) {
    v.Str? && AllSpace(v.s)
  }

  /** No field of `fields` holds a whitespace-only string. */
  predicate NoBlank(fields: map<string, Value>) {
    forall k :: k in fields ==> !Blank(fields[k])
  }

  /** `sanitize_fields`: the same keys, every whitespace-only string replaced
      by `None`, every other value (including `None` itself and non-strings)
      kept as it was. */
  function Sanitize(fields: map<string, Value>): (r: map<string, Value>)
    ensures r.Keys == fields.Keys
    ensures forall k :: k in fields && Blank(fields[k]) ==> r[k] == Null
    ensures forall k :: k in fields && !Blank(fields[k]) ==> r[k] == fields[k]
    ensures NoBlank(r)
  {
    map k | k in fields :: if fields[k].Str? && Strip(fields[k].s) == "" then Null else fields[k]
  }

  /** Sanitising twice is sanitising once. */
  lemma SanitizeIdempotent(fields: map<string, Value>)
    ensures Sanitize(Sanitize(fields)) == Sanitize(fields)
  {
  }

  /** The maps sanitisation leaves alone are exactly those with no blank field. */
  lemma SanitizeFixpoints(fields: map<string, Value>)
    ensures Sanitize(fields) == fields <==> NoBlank(fields)
  {
    if NoBlank(fields) {
      assert forall k :: k in fields ==> Sanitize(fields)[k] == fields[k];
    }
  }
}

=== FILE: pdf_text.dfy ===
/**
 Concatenation of per-page extracted text (the `pdfplumber` loop of
 `process_ticket` in app.py). Each page's text is what `extract_text()`
 returned: absent (`None`) or a string.
 */
module PdfText {
  import opened Wrappers

  /** `if page_text:` — present and non-empty. */
  predicate HasText(page: Option<string>) {
    page.Some? && page.value != ""
  }

  /** What one page contributes: its text and a newline, or nothing. */
  function Segment(page: Option<string>): string {
    if HasText(page) then page.value + "\n" else ""
  }

  /** The text accumulated after visiting `pages` in order. */
  function ConcatPages(pages: seq<Option<string>>): string
    decreases |pages|
  {
    if pages == [] then "" else ConcatPages(pages[..|pages| - 1]) + Segment(pages[|pages| - 1])
  }

  /** The extraction loop: `text += page_text + "\n"` for every page with text. */
  method ExtractText(pages: seq<Option<string>>) returns (text: string)
    ensures text == ConcatPages(pages)
    ensures text == "" <==> forall i :: 0 <= i < |pages| ==> !HasText(pages[i])
    ensures text != "" ==> text[|text| - 1] == '\n'
  {
    text := "";
    var i := 0;
    while i < |pages|
      invariant 0 <= i <= |pages|
      invariant text == ConcatPages(pages[..i])
    {
      var pageText := pages[i];
      if pageText.Some? && pageText.value != "" {
        text := text + pageText.value + "\n";
      }
      assert pages[..i + 1][..i] == pages[..i];
      i := i + 1;
    }
    assert pages[..i] == pages;
    ConcatEmptyIff(pages);
    ConcatEndsWithNewline(pages);
  }

  /** Concatenation distributes over splitting the page sequence. */
  lemma {:induction false} ConcatAppend(p: seq<Option<string>>, q: seq<Option<string>>)
    ensures ConcatPages(p + q) == ConcatPages(p) + ConcatPages(q)
    decreases |q|
  {
    if q == [] {
      assert p + q == p;
    } else {
      var q', last := q[..|q| - 1], q[|q| - 1];
      assert (p + q)[..|p + q| - 1] == p + q';
      assert (p + q)[|p + q| - 1] == last;
      ConcatAppend(p, q');
      calc {
        ConcatPages(p + q);
        ConcatPages(p + q') + Segment(last);
        (ConcatPages(p) + ConcatPages(q')) + Segment(last);
        ConcatPages(p) + (ConcatPages(q') + Segment(last));
        ConcatPages(p) + ConcatPages(q);
      }
    }
  }

  /** Read from the front: the first page's segment, then the rest. */
  lemma ConcatFromFront(pages: seq<Option<string>>)
    requires pages != []
    ensures ConcatPages(pages) == Segment(pages[0]) + ConcatPages(pages[1..])
  {
    assert pages == [pages[0]] + pages[1..];
    ConcatAppend([pages[0]], pages[1..]);
    assert [pages[0]][..0] == [];
  }

  /** The text is empty exactly when no page has text. */
  lemma {:induction false} ConcatEmptyIff(pages: seq<Option<string>>)
    ensures ConcatPages(pages) == "" <==> forall i :: 0 <= i < |pages| ==> !HasText(pages[i])
    decreases |pages|
  {
    if pages != [] {
      var init := pages[..|pages| - 1];
      ConcatEmptyIff(init);
      assert forall i :: 0 <= i < |init| ==> init[i] == pages[i];
    }
  }

  /** Non-empty text always ends with the newline of its last contributing page. */
  lemma {:induction false} ConcatEndsWithNewline(pages: seq<Option<string>>)
    ensures ConcatPages(pages) != "" ==> ConcatPages(pages)[|ConcatPages(pages)| - 1] == '\n'
    decreases |pages|
  {
    if pages != [] {
      ConcatEndsWithNewline(pages[..|pages| - 1]);
    }
  }
}

=== FILE: pystr.dfy ===
/**
 Python string primitives the service relies on: `str.isspace`, `str.strip()`,
 `str.startswith`, `str.endswith` and `str(n)` for a non-negative integer.
 */
module PyStr {

  /** `c.isspace()`: the characters Python's argument-less `strip()` removes. */
  predicate IsSpace(c: char) {
    var n := c as int;
    || (9 <= n <= 13)
    || (28 <= n <= 32)
    || n == 0x85 || n == 0xA0 || n == 0x1680
    || (0x2000 <= n <= 0x200A)
    || n == 0x2028 || n == 0x2029 || n == 0x202F || n == 0x205F || n == 0x3000
  }

  /** Every character of `s` is whitespace (vacuously true of ""). */
  predicate AllSpace(s: string) {
    forall i :: 0 <= i < |s| ==> IsSpace(s[i])
  }

  /** `s` neither starts nor ends with whitespace. */
  predicate Stripped(s: string) {
    s == [] || (!IsSpace(s[0]) && !IsSpace(s[|s| - 1]))
  }

  predicate StartsWith(s: string, prefix: string) {
    |prefix| <= |s| && s[..|prefix|] == prefix
  }

  predicate EndsWith(s: string, suffix: string) {
    |suffix| <= |s| && s[|s| - |suffix|..] == suffix
  }

  /** `r` is a contiguous piece of `s`. */
  ghost predicate Infix(r: string, s: string) {
    exists i, j :: 0 <= i <= j <= |s| && s[i..j] == r
  }

  lemma InfixTransitive(a: string, b: string, c: string)
    requires Infix(a, b) && Infix(b, c)
    ensures Infix(a, c)
  {
    var i, j :| 0 <= i <= j <= |b| && b[i..j] == a;
    var k, l :| 0 <= k <= l <= |c| && c[k..l] == b;
    forall m | 0 <= m < |a|
      ensures c[k + i..k + j][m] == a[m]
    {
      assert a[m] == b[i + m] == c[k + i + m];
    }
    assert c[k + i..k + j] == a;
  }

  lemma PieceIsInfix(s: string, i: nat, j: nat)
    requires i <= j <= |s|
    ensures Infix(s[i..j], s)
  {
  }

  /** Removes leading whitespace. */
  function TrimStart(s: string): (r: string)
    ensures |r| <= |s| && r == s[|s| - |r|..]
    ensures r == [] || !IsSpace(r[0])
    ensures AllSpace(s[..|s| - |r|])
  {
    if |s| > 0 && IsSpace(s[0]) then
      var r := TrimStart(s[1..]);
      assert s[..|s| - |r|] == [s[0]] + s[1..][..|s| - 1 - |r|];
      r
    else
      s
  }

  /** Removes trailing whitespace. */
  function TrimEnd(s: string): (r: string)
    ensures |r| <= |s| && r == s[..|r|]
    ensures r == [] || !IsSpace(r[|r| - 1])
    ensures AllSpace(s[|r|..])
  {
    if |s| > 0 && IsSpace(s[|s| - 1]) then
      var r := TrimEnd(s[..|s| - 1]);
      assert s[|r|..] == s[..|s| - 1][|r|..] + [s[|s| - 1]];
      r
    else
      s
  }

  /** `r` is what is left of `s` once a whitespace-only prefix and a
      whitespace-only suffix are cut off. */
  ghost predicate Trims(s: string, r: string) {
    exists k :: 0 <= k <= |s| - |r| && s[k..k + |r|] == r && AllSpace(s[..k]) && AllSpace(s[k + |r|..])
  }

  /** Python's `s.strip()`: the piece of `s` left once leading and trailing
      whitespace are removed; it is empty exactly when `s` is all whitespace. */
  function Strip(s: string): (r: string)
    ensures Stripped(r)
    ensures Trims(s, r) && Infix(r, s)
    ensures r == [] <==> AllSpace(s)
  {
    var t := TrimStart(s);
    var r := TrimEnd(t);
    StripIsInfix(s);
    StripTrims(s);
    StripEmpty(s);
    r
  }

  lemma StripTrims(s: string)
    ensures Trims(s, TrimEnd(TrimStart(s)))
  {
  }

  /** The two halves of `Strip`'s contract pin its result down: a stripped
      string left by cutting whitespace off both ends of `s` is `s.strip()`. */
  lemma StripUnique(s: string, r: string)
    requires Stripped(r) && Trims(s, r)
    ensures Strip(s) == r
  {
    var k :| 0 <= k <= |s| - |r| && s[k..k + |r|] == r && AllSpace(s[..k]) && AllSpace(s[k + |r|..]);
    assert s == s[..k] + r + s[k + |r|..];
    StripSurrounded(s[..k], r, s[k + |r|..]);
  }

  lemma StripIsInfix(s: string)
    ensures Infix(TrimEnd(TrimStart(s)), s)
  {
    var t := TrimStart(s);
    var r := TrimEnd(t);
    PieceIsInfix(s, |s| - |t|, |s|);
    PieceIsInfix(t, 0, |r|);
    InfixTransitive(r, t, s);
  }

  lemma StripEmpty(s: string)
    ensures TrimEnd(TrimStart(s)) == [] <==> AllSpace(s)
  {
    var t := TrimStart(s);
    var r := TrimEnd(t);
    if r == [] {
      assert t[0..] == t;
      assert AllSpace(t);
      assert t == [];
      assert s[..|s| - |t|] == s;
    } else {
      assert t != [] && t[0] == s[|s| - |t|];
      assert !IsSpace(s[|s| - |t|]);
    }
  }

  lemma {:induction false} TrimStartOfSpaces(a: string, y: string)
    requires AllSpace(a)
    requires y == [] || !IsSpace(y[0])
    ensures TrimStart(a + y) == y
    decreases |a|
  {
    if a != [] {
      assert (a + y)[1..] == a[1..] + y;
      TrimStartOfSpaces(a[1..], y);
    }
  }

  lemma {:induction false} TrimEndOfSpaces(y: string, b: string)
    requires AllSpace(b)
    requires y == [] || !IsSpace(y[|y| - 1])
    ensures TrimEnd(y + b) == y
    decreases |b|
  {
    if b != [] {
      assert (y + b)[..|y + b| - 1] == y + b[..|b| - 1];
      TrimEndOfSpaces(y, b[..|b| - 1]);
    } else {
      assert y + b == y;
    }
  }

  /** `strip()` is characterised independently of how it is computed: whatever
      whitespace surrounds a stripped core, the core is what remains. */
  lemma StripSurrounded(a: string, x: string, b: string)
    requires AllSpace(a) && AllSpace(b) && Stripped(x)
    ensures Strip(a + x + b) == x
  {
    if x == [] {
      assert a + x + b == a + b + [];
      TrimStartOfSpaces(a + b, []);
    } else {
      assert a + x + b == a + (x + b);
      TrimStartOfSpaces(a, x + b);
      TrimEndOfSpaces(x, b);
    }
  }

  /** A string without surrounding whitespace is its own `strip()`. */
  lemma StripStripped(s: string)
    requires Stripped(s)
    ensures Strip(s) == s
  {
    assert [] + s + [] == s;
    StripSurrounded([], s, []);
  }

  /** `strip()` is idempotent. */
  lemma StripIdempotent(s: string)
    ensures Strip(Strip(s)) == Strip(s)
  {
    StripStripped(Strip(s));
  }

  /** The digit character for `d`. */
  function DigitChar(d: nat): (c: char)
    requires d < 10
    ensures '0' <= c <= '9'
    ensures (c as int) - ('0' as int) == d
  {
    "0123456789"[d]
  }

  predicate AllDigits(s: string) {
    forall i :: 0 <= i < |s| ==> '0' <= s[i] <= '9'
  }

  /** `str(n)` for `n >= 0`: decimal digits, most significant first, no leading zero. */
  function Decimal(n: nat): (r: string)
    ensures |r| >= 1 && AllDigits(r)
    ensures r[0] == '0' ==> n == 0
  {
    if n < 10 then [DigitChar(n)] else Decimal(n / 10) + [DigitChar(n % 10)]
  }

  /** The number a string of decimal digits denotes. */
  function DecimalValue(s: string): nat
    requires AllDigits(s)
  {
    if s == [] then 0
    else DecimalValue(s[..|s| - 1]) * 10 + ((s[|s| - 1] as int) - ('0' as int))
  }

  /** Reading back `str(n)` gives `n`. */
  lemma {:induction false} DecimalRoundTrip(n: nat)
    ensures DecimalValue(Decimal(n)) == n
  {
    if n >= 10 {
      DecimalRoundTrip(n / 10);
      var s := Decimal(n);
      assert s[..|s| - 1] == Decimal(n / 10);
    }
  }

  /** Distinct numbers print differently. */
  lemma DecimalInjective(m: nat, n: nat)
    requires m != n
    ensures Decimal(m) != Decimal(n)
  {
    DecimalRoundTrip(m);
    DecimalRoundTrip(n);
  }
}

=== FILE: reply.dfy ===
/**
 Removal of the Markdown code fence a language model may wrap around a JSON
 reply (`clean_openai_response` in app.py).
 */
module Reply {
  import opened PyStr

  const Fence: string := "```"
  const JsonFence: string := "```json"

  /** One opening-fence step: if `text` starts with `fence`, the result is
      what follows the fence, with the whitespace around it cut off. */
  function DropOpening(text: string, fence: string): (r: string)
    ensures Infix(r, text)
    ensures StartsWith(text, fence) ==> Stripped(r) && Trims(text[|fence|..], r)
    ensures !StartsWith(text, fence) ==> r == text
  {
    if StartsWith(text, fence) then
      var rest := text[|fence|..];
      PieceIsInfix(text, |fence|, |text|);
      InfixTransitive(Strip(rest), rest, text);
      Strip(rest)
    else
      assert text[0..|text|] == text;
      text
  }

  /** The closing-fence step: if `text` ends with "```", the result is what
      precedes the fence, with the whitespace around it cut off. */
  function DropClosing(text: string): (r: string)
    ensures Infix(r, text)
    ensures EndsWith(text, Fence) ==> Stripped(r) && Trims(text[..|text| - |Fence|], r)
    ensures !EndsWith(text, Fence) ==> r == text
  {
    if EndsWith(text, Fence) then
      var rest := text[..|text| - |Fence|];
      PieceIsInfix(text, 0, |text| - |Fence|);
      InfixTransitive(Strip(rest), rest, text);
      Strip(rest)
    else
      assert text[0..|text|] == text;
      text
  }

  /** `clean_openai_response`: the "```json" opening is tried before the bare
      "```" one, then a closing "```" is removed; each removal is followed by
      `strip()`. The result is always a piece of the reply; a reply carrying
      no fence comes back untouched, and one that had any fence comes back
      without surrounding whitespace. */
  function CleanReply(text: string): (r: string)
    ensures Infix(r, text) && |r| <= |text|
    ensures !StartsWith(text, Fence) && !EndsWith(text, Fence) ==> r == text
    ensures StartsWith(text, Fence) || EndsWith(text, Fence) ==> Stripped(r)
  {
    var afterJson := DropOpening(text, JsonFence);
    var afterFence := DropOpening(afterJson, Fence);
    var r := DropClosing(afterFence);
    StepsAreInfix(text, afterJson, afterFence, r);
    JsonFenceIsFence(text);
    r
  }

  lemma StepsAreInfix(text: string, a: string, b: string, r: string)
    requires Infix(a, text) && Infix(b, a) && Infix(r, b)
    ensures Infix(r, text) && |r| <= |text|
  {
    InfixTransitive(b, a, text);
    InfixTransitive(r, b, text);
  }

  /** A reply opening with "```json" opens with "```". */
  lemma JsonFenceIsFence(text: string)
    ensures StartsWith(text, JsonFence) ==> StartsWith(text, Fence)
  {
    if StartsWith(text, JsonFence) {
      assert text[..|Fence|] == text[..|JsonFence|][..|Fence|];
    }
  }

  /** What the opening step leaves of `lead + x + trail + "```"`: the body
      with its closing fence, or just the closing fence when the body is empty. */
  ghost function Opened(x: string, trail: string): string {
    if x == [] then Fence else x + trail + Fence
  }

  lemma AfterOpening(lead: string, x: string, trail: string)
    requires AllSpace(lead) && AllSpace(trail) && Stripped(x)
    requires x == [] || x[0] != '`'
    ensures Strip(lead + x + trail + Fence) == Opened(x, trail)
  {
    if x == [] {
      assert lead + x + trail + Fence == (lead + trail) + Fence + [];
      assert AllSpace(lead + trail);
      StripSurrounded(lead + trail, Fence, []);
    } else {
      assert lead + x + trail + Fence == lead + (x + trail + Fence) + [];
      StripSurrounded(lead, x + trail + Fence, []);
    }
  }

  /** The closing step on what the opening step left. */
  lemma ClosingAfterOpening(x: string, trail: string)
    requires AllSpace(trail) && Stripped(x)
    ensures DropClosing(Opened(x, trail)) == x
  {
    var t := Opened(x, trail);
    assert EndsWith(t, Fence);
    if x == [] {
      assert t[..|t| - |Fence|] == [];
      StripStripped([]);
    } else {
      assert t[..|t| - |Fence|] == [] + x + trail;
      StripSurrounded([], x, trail);
    }
  }

  /** After a "```json" opening, the bare-fence step finds nothing more to
      remove, except the lone closing fence of an empty body. */
  lemma BareStepAfterJson(x: string, trail: string)
    requires Stripped(x)
    requires x == [] || x[0] != '`'
    ensures DropOpening(Opened(x, trail), Fence) == if x == [] then [] else Opened(x, trail)
  {
    var t := Opened(x, trail);
    if x == [] {
      assert StartsWith(t, Fence);
      assert t[|Fence|..] == [];
      StripStripped([]);
    } else {
      assert t[0] == x[0];
      assert !StartsWith(t, Fence) by { assert t[..|Fence|][0] != Fence[0]; }
    }
  }

  /** Round trip: a reply fenced as "```json", with any whitespace around the
      body, cleans back to the body. */
  lemma {:induction false} CleanJsonFenced(lead: string, x: string, trail: string)
    requires AllSpace(lead) && AllSpace(trail) && Stripped(x)
    requires x == [] || x[0] != '`'
    ensures CleanReply(JsonFence + lead + x + trail + Fence) == x
  {
    var text := JsonFence + lead + x + trail + Fence;
    assert StartsWith(text, JsonFence);
    assert text[|JsonFence|..] == lead + x + trail + Fence;
    AfterOpening(lead, x, trail);
    var afterJson := DropOpening(text, JsonFence);
    assert afterJson == Opened(x, trail);
    BareStepAfterJson(x, trail);
    var afterFence := DropOpening(afterJson, Fence);
    if x == [] {
      assert afterFence == [];
      assert !EndsWith(afterFence, Fence);
    } else {
      assert afterFence == Opened(x, trail);
      ClosingAfterOpening(x, trail);
    }
  }

  /** Round trip: a reply fenced with a bare "```" cleans back to the body,
      provided the reply does not open with "```json" (that opening is the
      other round trip). */
  lemma {:induction false} CleanBareFenced(lead: string, x: string, trail: string)
    requires AllSpace(lead) && AllSpace(trail) && Stripped(x)
    requires x == [] || x[0] != '`'
    requires !StartsWith(Fence + lead + x + trail + Fence, JsonFence)
    ensures CleanReply(Fence + lead + x + trail + Fence) == x
  {
    var text := Fence + lead + x + trail + Fence;
    var afterJson := DropOpening(text, JsonFence);
    assert afterJson == text;
    assert StartsWith(text, Fence);
    assert text[|Fence|..] == lead + x + trail + Fence;
    AfterOpening(lead, x, trail);
    var afterFence := DropOpening(afterJson, Fence);
    assert afterFence == Opened(x, trail);
    ClosingAfterOpening(x, trail);
  }

  /** The example a model typically produces: "```json\n{"a":1}\n```" cleans
      to `{"a":1}` with no "json" tag left over. */
  lemma JsonTagNotLeftOver()
    ensures CleanReply("```json\n{\"a\":1}\n```") == "{\"a\":1}"
  {
    assert "```json\n{\"a\":1}\n```" == JsonFence + "\n" + "{\"a\":1}" + "\n" + Fence;
    CleanJsonFenced("\n", "{\"a\":1}", "\n");
  }
}

=== FILE: split_upload.dfy ===
/**
 The per-page loop of `split_and_upload_pdf` (split_and_upload.py): every page
 of the source PDF is uploaded to S3 under a fresh name and recorded as an
 Airtable row; the pages whose row was created are returned as tickets.
 */
module SplitUpload {
  import opened PyStr

  /** What the outside world does for one page: the two `uuid4()` tokens the
      loop draws (object name, then "Page UUID"), whether `s3.upload_file`
      returned (it raises otherwise) and the status of the Airtable POST. */
  datatype PageOutcome = PageOutcome(objectToken: string, rowToken: string, uploaded: bool, status: int)

  /** The row the loop POSTs to Airtable for one page. */
  datatype Payload = Payload(pageNumber: int, pageUuid: string, url: string, filename: string)

  datatype Ticket = Ticket(page: int, pdfUrl: string)

  /** The dictionary `split_and_upload_pdf` returns. */
  datatype Summary = Summary(success: bool, processedCount: int, tickets: seq<Ticket>)

  /** How the call ends: it returns its summary, or an upload raises and the
      exception leaves the call. */
  datatype Ending = Returned(summary: Summary) | Raised

  /** The S3 uploads attempted (the last one raised, in a `Raised` run) and
      the rows posted, in order, and how the call ended. */
  datatype Run = Run(uploads: seq<string>, posts: seq<Payload>, ending: Ending)

  /** `f"{uuid.uuid4()}.pdf"`. */
  function ObjectKey(token: string): string {
    token + ".pdf"
  }

  /** The public URL of an object of the bucket. */
  function ObjectUrl(bucket: string, key: string): string {
    "https://" + bucket + ".s3.amazonaws.com/" + key
  }

  /** `f"ticket-page-{page}.pdf"`. */
  function AttachmentName(page: nat): string {
    "ticket-page-" + Decimal(page) + ".pdf"
  }

  /** The pages that get past the upload. */
  predicate AllUploaded(pages: seq<PageOutcome>) {
    forall i :: 0 <= i < |pages| ==> pages[i].uploaded
  }

  /** Some ticket names `page`. */
  ghost predicate HasTicket(tickets: seq<Ticket>, page: int) {
    exists j :: 0 <= j < |tickets| && tickets[j].page == page
  }

  /** Pages are visited in order, each uploaded under its own key; one row is
      posted per page that got past its upload, numbered densely from 1, named
      after its page, carrying its own UUID and the URL of the key uploaded. */
  predicate RowsBuilt(bucket: string, pages: seq<PageOutcome>, uploads: seq<string>, posts: seq<Payload>) {
    && |posts| <= |uploads| <= |pages|
    && (forall i :: 0 <= i < |uploads| ==> uploads[i] == ObjectKey(pages[i].objectToken))
    && (forall i :: 0 <= i < |posts| ==>
          && posts[i].pageNumber == i + 1
          && posts[i].filename == AttachmentName(i + 1)
          && posts[i].pageUuid == pages[i].rowToken
          && posts[i].url == ObjectUrl(bucket, uploads[i]))
  }

  lemma UploadExtendsRows(bucket: string, pages: seq<PageOutcome>, uploads: seq<string>, posts: seq<Payload>)
    requires RowsBuilt(bucket, pages, uploads, posts) && |posts| == |uploads| < |pages|
    ensures RowsBuilt(bucket, pages, uploads + [ObjectKey(pages[|uploads|].objectToken)], posts)
  {
  }

  lemma PostExtendsRows(bucket: string, pages: seq<PageOutcome>, uploads: seq<string>, posts: seq<Payload>)
    requires RowsBuilt(bucket, pages, uploads, posts) && |posts| + 1 == |uploads|
    ensures
      var n := |posts|;
      RowsBuilt(bucket, pages, uploads,
        posts + [Payload(n + 1, pages[n].rowToken, ObjectUrl(bucket, uploads[n]), AttachmentName(n + 1))])
  {
  }

  /** `split_and_upload_pdf` over `|pages|` pages. */
  method SplitAndUpload(bucket: string, pages: seq<PageOutcome>) returns (run: Run)
    ensures RowsBuilt(bucket, pages, run.uploads, run.posts)
    // an upload that raises ends the call: nothing after it is attempted
    ensures run.ending.Raised? <==> !AllUploaded(pages)
    ensures run.ending.Raised? ==>
      && |run.uploads| == |run.posts| + 1
      && !pages[|run.posts|].uploaded
      && AllUploaded(pages[..|run.posts|])
    // a normal return covers every page and always reports success
    ensures run.ending.Returned? ==>
      && |run.uploads| == |run.posts| == |pages|
      && run.ending.summary.success
      && run.ending.summary.processedCount == |run.ending.summary.tickets| <= |pages|
    // an empty document still returns success, with nothing recorded
    ensures pages == [] ==> run == Run([], [], Returned(Summary(true, 0, [])))
    // a ticket exactly for the pages whose row was created, in page order
    ensures run.ending.Returned? ==>
      && run.ending.summary.tickets == Recorded(bucket, pages)
      && TicketsFaithful(pages, run.posts, run.ending.summary.tickets)
  {
    var uploads, posts, tickets, raised := VisitPages(bucket, pages);
    if raised {
      run := Run(uploads, posts, Raised);
    } else {
      TicketsMatchRows(bucket, pages, uploads, posts);
      run := Run(uploads, posts, Returned(Summary(true, |tickets|, tickets)));
    }
  }

  /** The loop itself: pages in order until an upload raises. */
  method VisitPages(bucket: string, pages: seq<PageOutcome>)
    returns (uploads: seq<string>, posts: seq<Payload>, tickets: seq<Ticket>, raised: bool)
    ensures RowsBuilt(bucket, pages, uploads, posts)
    ensures raised <==> !AllUploaded(pages)
    ensures raised ==>
      && |uploads| == |posts| + 1
      && !pages[|posts|].uploaded
      && AllUploaded(pages[..|posts|])
    ensures !raised ==> |uploads| == |posts| == |pages| && tickets == Recorded(bucket, pages)
  {
    tickets, uploads, posts := [], [], [];
    var pageNum := 0;
    raised := false;
    while pageNum < |pages|
      invariant 0 <= pageNum <= |pages|
      invariant |posts| == pageNum
      invariant |uploads| == pageNum
      invariant !raised
      invariant AllUploaded(pages[..pageNum])
      invariant RowsBuilt(bucket, pages, uploads, posts)
      invariant tickets == Recorded(bucket, pages[..pageNum])
    {
      var page := pages[pageNum];
      var filename := ObjectKey(page.objectToken);
      UploadExtendsRows(bucket, pages, uploads, posts);
      uploads := uploads + [filename];
      if !page.uploaded {
        raised := true;
        break;
      }
      var pdfUrl := ObjectUrl(bucket, filename);
      var payload := Payload(pageNum + 1, page.rowToken, pdfUrl, AttachmentName(pageNum + 1));
      PostExtendsRows(bucket, pages, uploads, posts);
      posts := posts + [payload];
      if page.status == 200 {
        tickets := tickets + [Ticket(pageNum + 1, pdfUrl)];
      }
      RecordedStep(bucket, pages, pageNum);
      pageNum := pageNum + 1;
    }
    if raised {
      assert !AllUploaded(pages) by { assert !pages[pageNum].uploaded; }
    } else {
      assert pages[..pageNum] == pages;
    }
  }

  /** The tickets the loop collects over `pages`: one per page whose row was
      created, carrying the page's 1-based number and its object URL. */
  function Recorded(bucket: string, pages: seq<PageOutcome>): seq<Ticket>
    decreases |pages|
  {
    if pages == [] then []
    else
      var last := pages[|pages| - 1];
      Recorded(bucket, pages[..|pages| - 1])
        + if last.status == 200 then [Ticket(|pages|, ObjectUrl(bucket, ObjectKey(last.objectToken)))] else []
  }

  /** One more page extends the tickets by at most that page's ticket, and the
      uploaded prefix by that page. */
  lemma RecordedStep(bucket: string, pages: seq<PageOutcome>, n: nat)
    requires n < |pages|
    ensures Recorded(bucket, pages[..n + 1]) == Recorded(bucket, pages[..n])
      + if pages[n].status == 200 then [Ticket(n + 1, ObjectUrl(bucket, ObjectKey(pages[n].objectToken)))] else []
    ensures AllUploaded(pages[..n + 1]) <==> AllUploaded(pages[..n]) && pages[n].uploaded
  {
    assert pages[..n + 1][..n] == pages[..n];
    assert pages[..n + 1] == pages[..n] + [pages[n]];
  }

  /** Every ticket names a page of the document whose row was created, and
      carries that page's URL. */
  lemma {:induction false} RecordedPages(bucket: string, pages: seq<PageOutcome>)
    ensures |Recorded(bucket, pages)| <= |pages|
    ensures forall j :: 0 <= j < |Recorded(bucket, pages)| ==>
      var t := Recorded(bucket, pages)[j];
      && 1 <= t.page <= |pages|
      && pages[t.page - 1].status == 200
      && t.pdfUrl == ObjectUrl(bucket, ObjectKey(pages[t.page - 1].objectToken))
    decreases |pages|
  {
    if pages != [] {
      var init := pages[..|pages| - 1];
      var r, r0 := Recorded(bucket, pages), Recorded(bucket, init);
      RecordedPages(bucket, init);
      forall j | 0 <= j < |r|
        ensures 1 <= r[j].page <= |pages|
        ensures pages[r[j].page - 1].status == 200
        ensures r[j].pdfUrl == ObjectUrl(bucket, ObjectKey(pages[r[j].page - 1].objectToken))
      {
        if j < |r0| {
          assert r[j] == r0[j];
          assert init[r0[j].page - 1] == pages[r0[j].page - 1];
        } else {
          assert r[j].page == |pages|;
        }
      }
    }
  }

  /** Tickets come in strictly increasing page order. */
  lemma {:induction false} RecordedOrdered(bucket: string, pages: seq<PageOutcome>)
    ensures forall j, k :: 0 <= j < k < |Recorded(bucket, pages)| ==>
      Recorded(bucket, pages)[j].page < Recorded(bucket, pages)[k].page
    decreases |pages|
  {
    if pages != [] {
      var init := pages[..|pages| - 1];
      RecordedOrdered(bucket, init);
      RecordedPages(bucket, init);
    }
  }

  /** Every page whose row was created has its ticket. */
  lemma {:induction false} RecordedComplete(bucket: string, pages: seq<PageOutcome>)
    ensures forall i :: 0 <= i < |pages| && pages[i].status == 200 ==> HasTicket(Recorded(bucket, pages), i + 1)
    decreases |pages|
  {
    if pages != [] {
      var init := pages[..|pages| - 1];
      var r := Recorded(bucket, pages);
      RecordedComplete(bucket, init);
      forall i | 0 <= i < |pages| && pages[i].status == 200
        ensures HasTicket(r, i + 1)
      {
        if i < |init| {
          assert init[i] == pages[i];
          var j :| 0 <= j < |Recorded(bucket, init)| && Recorded(bucket, init)[j].page == i + 1;
          assert r[j] == Recorded(bucket, init)[j];
        } else {
          assert r[|r| - 1].page == i + 1;
        }
      }
    }
  }

  /** The tickets name, in strictly increasing order, exactly the pages whose
      row was created, each with the URL its row recorded. */
  ghost predicate TicketsFaithful(pages: seq<PageOutcome>, posts: seq<Payload>, tickets: seq<Ticket>) {
    && |posts| == |pages|
    && (forall j :: 0 <= j < |tickets| ==>
          && 1 <= tickets[j].page <= |pages|
          && pages[tickets[j].page - 1].status == 200
          && tickets[j].pdfUrl == posts[tickets[j].page - 1].url)
    && (forall j, k :: 0 <= j < k < |tickets| ==> tickets[j].page < tickets[k].page)
    && (forall i :: 0 <= i < |pages| && pages[i].status == 200 ==> HasTicket(tickets, i + 1))
  }

  /** The ticket facts the summary promises, for rows posted as the loop does. */
  lemma TicketsMatchRows(bucket: string, pages: seq<PageOutcome>, uploads: seq<string>, posts: seq<Payload>)
    requires |uploads| == |posts| == |pages|
    requires RowsBuilt(bucket, pages, uploads, posts)
    ensures |Recorded(bucket, pages)| <= |pages|
    ensures TicketsFaithful(pages, posts, Recorded(bucket, pages))
  {
    RecordedPages(bucket, pages);
    RecordedOrdered(bucket, pages);
    RecordedComplete(bucket, pages);
  }

  /** Each row's attachment carries its own file name. */
  lemma AttachmentNamesDistinct(p: nat, q: nat)
    requires p != q
    ensures AttachmentName(p) != AttachmentName(q)
  {
    DecimalInjective(p, q);
    var a, b := AttachmentName(p), AttachmentName(q);
    assert a[12..|a| - 4] == Decimal(p);
    assert b[12..|b| - 4] == Decimal(q);
  }
}

=== FILE: ticket.dfy ===
/**
 The `process_ticket` request handler of app.py, as a pure function of the
 request body and of what each external service answered. The result pairs
 the HTTP response with the trace of external calls the handler issued, so
 that "no update was written" and "nothing was fetched" can be stated.
 */
module Ticket {
  import opened Wrappers
  import opened PyStr
  import opened Fields
  import opened Reply
  import opened PdfText

  /** The Airtable GET of the record: status, raw body text, and the record's
      `fields` object (an absent `fields` reads as the empty map). */
  datatype FetchReply = FetchReply(status: int, text: string, fields: map<string, Value>)

  /** The download of the attachment: status, and the per-page texts
      `pdfplumber` extracts from the bytes (`None`: the bytes are not a PDF). */
  datatype DownloadReply = DownloadReply(status: int, pages: Option<seq<Option<string>>>)

  /** The Airtable PATCH of the record. */
  datatype UpdateReply = UpdateReply(status: int, text: string)

  /** Everything the handler learns from the outside world. `completion` is the
      model's message content or the text of the exception the call raised;
      `decode` is `json.loads`, with `None` for a `JSONDecodeError`. */
  datatype Services = Services(
    fetch: FetchReply,
    download: DownloadReply,
    completion: Result<string, string>,
    decode: string -> Option<Value>,
    update: UpdateReply)

  /** An external call the handler issues, in the order issued. */
  datatype Call =
    | FetchRecord(recordId: Value)
    | DownloadPdf(url: Value)
    | Complete(ticketText: Value, pdfText: string)
    | UpdateRecord(recordId: Value, fields: map<string, Value>)

  /** The errors the handler reports itself. */
  datatype Failure =
    | MissingRecordId
    | RecordFetchFailed(detail: string)
    | NoAttachment
    | DownloadFailed
    | InferenceFailed(detail: string)
    | UpdateFailed(detail: string)

  /** Where an exception the handler does not catch escapes (Flask answers 500). */
  datatype Crash =
    | AttachmentShape   // `attachments[0].get("url")` on something not a list of objects
    | NotAPdf           // `pdfplumber.open` on bytes that are not a PDF
    | NotAnObject       // `sanitize_fields` on a decoded reply that is not a dict

  /** The handler's own errors carry the message it sends with them. */
  datatype Body =
    | Failed(failure: Failure, message: string)
    | Processed(fields: map<string, Value>)
    | Unhandled(crash: Crash)

  datatype Response = Response(status: int, body: Body)

  datatype Outcome = Outcome(response: Response, calls: seq<Call>)

  /** The status code the handler pairs with each of its own errors. */
  function FailureStatus(f: Failure): (status: int)
    ensures status in {400, 500}
    ensures status == 400 <==> f.MissingRecordId? || f.NoAttachment?
  {
    if f.MissingRecordId? || f.NoAttachment? then 400 else 500
  }

  /** The error text the handler sends for each of its own errors. */
  function ErrorMessage(f: Failure): (m: string)
    ensures f.RecordFetchFailed? || f.InferenceFailed? || f.UpdateFailed? ==> EndsWith(m, f.detail)
  {
    match f
    case MissingRecordId => "Missing recordId"
    case RecordFetchFailed(d) => "Failed to fetch Airtable record: " + d
    case NoAttachment => "No PDF attachment found"
    case DownloadFailed => "Failed to download PDF"
    case InferenceFailed(d) => "OpenAI API error: " + d
    case UpdateFailed(d) => "Failed to update Airtable record: " + d
  }

  /** The response the handler builds for one of its own errors. */
  function Reject(f: Failure): Response {
    Response(FailureStatus(f), Failed(f, ErrorMessage(f)))
  }

  /** `data.get("recordId")`. */
  function RecordId(request: map<string, Value>): Value {
    Get(request, "recordId", Null)
  }

  /** `attachments[0].get("url")`, or `None` when that expression raises. */
  function FirstUrl(attachments: Value): Option<Value> {
    if attachments.Array? && attachments.items != [] && attachments.items[0].Object? then
      Some(Get(attachments.items[0].members, "url", Null))
    else
      None
  }

  /** The reply as `json.loads` sees it: stripped, then unfenced. */
  function ReplyForDecoding(content: string): string {
    CleanReply(Strip(content))
  }

  /** The model answered, but `json.loads` rejects its cleaned reply. */
  predicate ReplyUndecodable(svc: Services) {
    svc.completion.Success? && svc.decode(ReplyForDecoding(svc.completion.value)).None?
  }

  /** `structured_data`: the decoded text, or `{}` when decoding failed. */
  function StructuredData(decode: string -> Option<Value>, cleaned: string): Value {
    match decode(cleaned)
    case None => Object(map[])
    case Some(v) => v
  }

  /** `fields.get("Ticket Text", "")`. */
  function TicketText(fields: map<string, Value>): Value {
    Get(fields, "Ticket Text", Str(""))
  }

  /** The model answered with a reply that decodes to an object, or that does
      not decode at all (read as `{}`): the handler goes on to the update. */
  predicate Writable(svc: Services) {
    svc.completion.Success? && StructuredData(svc.decode, ReplyForDecoding(svc.completion.value)).Object?
  }

  /** The fields the update carries: the decoded reply, sanitised. */
  function WrittenFields(svc: Services): map<string, Value>
    requires Writable(svc)
  {
    Sanitize(StructuredData(svc.decode, ReplyForDecoding(svc.completion.value)).members)
  }

  /** The download answered 200 with bytes `pdfplumber` can open. */
  predicate Downloaded(svc: Services) {
    svc.download.status == 200 && svc.download.pages.Some?
  }

  /** From the cleaned reply on: decode, sanitise, write back. A reply that
      decodes to an object is sanitised and written back, and one that does
      not decode is written back as the empty field set; the PATCH status then
      decides between success and the update error. A reply that decodes to
      anything else crashes before the update. */
  function WriteBack(recordId: Value, svc: Services, cleaned: string): (r: Outcome)
    ensures StructuredData(svc.decode, cleaned).Object? ==>
      && r.calls == [UpdateRecord(recordId, Sanitize(StructuredData(svc.decode, cleaned).members))]
      && (r.response.status == 200 <==> svc.update.status == 200)
      && (svc.update.status != 200 ==> r.response == Reject(UpdateFailed(svc.update.text)))
    ensures !StructuredData(svc.decode, cleaned).Object? ==>
      r == Outcome(Response(500, Unhandled(NotAnObject)), [])
    ensures svc.decode(cleaned).None? ==> r.calls == [UpdateRecord(recordId, map[])]
    ensures r.response.status in {200, 500}
    ensures r.response.status == 200 ==>
      && r.response.body.Processed?
      && r.calls == [UpdateRecord(recordId, r.response.body.fields)]
  {
    var structured := StructuredData(svc.decode, cleaned);
    if !structured.Object? then
      Outcome(Response(500, Unhandled(NotAnObject)), [])
    else
      var sanitised := Sanitize(structured.members);
      var written := [UpdateRecord(recordId, sanitised)];
      if svc.update.status != 200 then
        Outcome(Reject(UpdateFailed(svc.update.text)), written)
      else
        Outcome(Response(200, Processed(sanitised)), written)
  }

  /** From the extracted pages on: ask the model with the concatenated page
      text, then write back. An exception from the model ends the request
      with the inference error and no update. */
  function AskModel(recordId: Value, svc: Services, fields: map<string, Value>, pages: seq<Option<string>>): (r: Outcome)
    ensures 1 <= |r.calls| <= 2
    ensures r.calls[0] == Complete(TicketText(fields), ConcatPages(pages))
    ensures svc.completion.Failure? ==>
      r == Outcome(Reject(InferenceFailed(svc.completion.error)), r.calls[..1])
    ensures svc.completion.Success? && !Writable(svc) ==>
      r == Outcome(Response(500, Unhandled(NotAnObject)), r.calls[..1])
    ensures Writable(svc) ==>
      && r.calls == r.calls[..1] + [UpdateRecord(recordId, WrittenFields(svc))]
      && (r.response.status == 200 <==> svc.update.status == 200)
      && (svc.update.status != 200 ==> r.response == Reject(UpdateFailed(svc.update.text)))
    ensures ReplyUndecodable(svc) ==> r.calls == r.calls[..1] + [UpdateRecord(recordId, map[])]
    ensures r.response.status in {200, 500}
    ensures r.response.status == 200 ==>
      && Writable(svc) && svc.update.status == 200
      && r.response == Response(200, Processed(WrittenFields(svc)))
  {
    var asked := [Complete(TicketText(fields), ConcatPages(pages))];
    match svc.completion
    case Failure(e) => Outcome(Reject(InferenceFailed(e)), asked)
    case Success(content) =>
      var w := WriteBack(recordId, svc, ReplyForDecoding(content));
      Outcome(w.response, asked + w.calls)
  }

  /** From the attachment's URL on: download, extract the text, ask the model,
      write back. A download that does not answer 200 ends the request with
      the download error, and bytes that are not a PDF crash it; in both cases
      the model is not asked. */
  function FromUrl(recordId: Value, svc: Services, url: Value): (r: Outcome)
    ensures 1 <= |r.calls| <= 3
    ensures r.calls[0] == DownloadPdf(url)
    ensures svc.download.status != 200 ==> r == Outcome(Reject(DownloadFailed), [DownloadPdf(url)])
    ensures svc.download.status == 200 && svc.download.pages.None? ==>
      r == Outcome(Response(500, Unhandled(NotAPdf)), [DownloadPdf(url)])
    ensures |r.calls| >= 2 <==> Downloaded(svc)
    ensures |r.calls| >= 2 ==>
      r.calls[1] == Complete(TicketText(svc.fetch.fields), ConcatPages(svc.download.pages.value))
    ensures Downloaded(svc) && svc.completion.Failure? ==>
      r == Outcome(Reject(InferenceFailed(svc.completion.error)), r.calls[..2])
    ensures Downloaded(svc) && svc.completion.Success? && !Writable(svc) ==>
      r == Outcome(Response(500, Unhandled(NotAnObject)), r.calls[..2])
    ensures Downloaded(svc) && Writable(svc) ==>
      && |r.calls| == 3 && r.calls[2] == UpdateRecord(recordId, WrittenFields(svc))
      && (r.response.status == 200 <==> svc.update.status == 200)
      && (svc.update.status != 200 ==> r.response == Reject(UpdateFailed(svc.update.text)))
    ensures Downloaded(svc) && ReplyUndecodable(svc) ==> |r.calls| == 3 && r.calls[2] == UpdateRecord(recordId, map[])
    ensures r.response.status in {200, 500}
    ensures r.response.status == 200 ==>
      && Downloaded(svc) && Writable(svc) && svc.update.status == 200
      && r.response == Response(200, Processed(WrittenFields(svc)))
  {
    var downloaded := [DownloadPdf(url)];
    if svc.download.status != 200 then
      Outcome(Reject(DownloadFailed), downloaded)
    else
      match svc.download.pages
      case None => Outcome(Response(500, Unhandled(NotAPdf)), downloaded)
      case Some(pages) =>
        var a := AskModel(recordId, svc, svc.fetch.fields, pages);
        Outcome(a.response, downloaded + a.calls)
  }

  /** The record's `Attachment` value. */
  function Attachments(svc: Services): Value {
    Get(svc.fetch.fields, "Attachment", Null)
  }

  /** From the fetched record on: find the attachment, then go on from its URL.
      A falsy attachment is a bad request and nothing is downloaded; one whose
      first element is not an object crashes before the download. */
  function FromRecord(recordId: Value, svc: Services): (r: Outcome)
    ensures |r.calls| <= 3
    ensures !Truthy(Attachments(svc)) ==> r == Outcome(Reject(NoAttachment), [])
    ensures Truthy(Attachments(svc)) && FirstUrl(Attachments(svc)).None? ==>
      r == Outcome(Response(500, Unhandled(AttachmentShape)), [])
    ensures r.response.status == 400 ==> r == Outcome(Reject(NoAttachment), [])
    ensures r.response.status in {200, 400, 500}
    ensures r.calls != [] <==> Truthy(Attachments(svc)) && FirstUrl(Attachments(svc)).Some?
    ensures r.calls != [] ==> r.calls[0] == DownloadPdf(FirstUrl(Attachments(svc)).value)
    ensures r.calls != [] && svc.download.status != 200 ==> r == Outcome(Reject(DownloadFailed), r.calls[..1])
    ensures r.calls != [] && svc.download.status == 200 && svc.download.pages.None? ==>
      r == Outcome(Response(500, Unhandled(NotAPdf)), r.calls[..1])
    ensures |r.calls| >= 2 <==> r.calls != [] && Downloaded(svc)
    ensures |r.calls| >= 2 ==>
      && Downloaded(svc)
      && r.calls[1] == Complete(TicketText(svc.fetch.fields), ConcatPages(svc.download.pages.value))
    ensures |r.calls| >= 2 && svc.completion.Failure? ==>
      r == Outcome(Reject(InferenceFailed(svc.completion.error)), r.calls[..2])
    ensures |r.calls| >= 2 && svc.completion.Success? && !Writable(svc) ==>
      r == Outcome(Response(500, Unhandled(NotAnObject)), r.calls[..2])
    ensures |r.calls| >= 2 && Writable(svc) ==>
      && |r.calls| == 3 && r.calls[2] == UpdateRecord(recordId, WrittenFields(svc))
      && (r.response.status == 200 <==> svc.update.status == 200)
      && (svc.update.status != 200 ==> r.response == Reject(UpdateFailed(svc.update.text)))
    ensures |r.calls| >= 2 && ReplyUndecodable(svc) ==> |r.calls| == 3 && r.calls[2] == UpdateRecord(recordId, map[])
    ensures r.response.status == 200 ==>
      && |r.calls| == 3 && Downloaded(svc) && Writable(svc) && svc.update.status == 200
      && r.response == Response(200, Processed(WrittenFields(svc)))
  {
    var attachments := Attachments(svc);
    if !Truthy(attachments) then
      Outcome(Reject(NoAttachment), [])
    else
      match FirstUrl(attachments)
      case None => Outcome(Response(500, Unhandled(AttachmentShape)), [])
      case Some(url) => FromUrl(recordId, svc, url)
  }

  /** The calls issued form a prefix of fetch, download, ask, update: in
      particular nothing follows an update and nothing is written before the
      model has been asked. */
  predicate InOrder(calls: seq<Call>) {
    && |calls| <= 4
    && (|calls| >= 1 ==> calls[0].FetchRecord?)
    && (|calls| >= 2 ==> calls[1].DownloadPdf?)
    && (|calls| >= 3 ==> calls[2].Complete?)
    && (|calls| == 4 ==> calls[3].UpdateRecord?)
  }

  /** The handler. It rejects a missing id before calling anything, and a
      failed fetch or a record without attachment before downloading; every
      error it reports is sent with its own status and message. The lemmas
      below state the rest: `LaterReturns` and `ModelReturns` the early
      returns after the fetch, `SucceedsExactly` when it succeeds and what
      it returns then. */
  function ProcessTicket(request: map<string, Value>, svc: Services): (r: Outcome)
    ensures !Truthy(RecordId(request)) ==> r == Outcome(Reject(MissingRecordId), [])
    ensures Truthy(RecordId(request)) ==> r.calls != [] && r.calls[0] == FetchRecord(RecordId(request))
    ensures Truthy(RecordId(request)) && svc.fetch.status != 200 ==>
      r == Outcome(Reject(RecordFetchFailed(svc.fetch.text)), [FetchRecord(RecordId(request))])
    ensures Truthy(RecordId(request)) && svc.fetch.status == 200 && !Truthy(Attachments(svc)) ==>
      r == Outcome(Reject(NoAttachment), [FetchRecord(RecordId(request))])
    ensures InOrder(r.calls)
    ensures r.response.status in {200, 400, 500}
    ensures r.response.status == 400 <==>
      !Truthy(RecordId(request)) || (svc.fetch.status == 200 && !Truthy(Attachments(svc)))
    ensures r.response.status == 400 ==>
      && (r.response == Reject(MissingRecordId) || r.response == Reject(NoAttachment))
      && |r.calls| <= 1
    ensures r.response.body.Failed? ==> r.response == Reject(r.response.body.failure)
  {
    var recordId := RecordId(request);
    if !Truthy(recordId) then
      Outcome(Reject(MissingRecordId), [])
    else if svc.fetch.status != 200 then
      Outcome(Reject(RecordFetchFailed(svc.fetch.text)), [FetchRecord(recordId)])
    else
      var f := FromRecord(recordId, svc);
      Outcome(f.response, [FetchRecord(recordId)] + f.calls)
  }

  /** The handler's returns between the fetch and the model: the attachment's
      URL is downloaded exactly when the fetch answered 200 and the record
      has a usable attachment; a download that does not
      answer 200 and bytes that are not a PDF end the request there; the
      model is asked exactly when both went well. */
  lemma LaterReturns(request: map<string, Value>, svc: Services)
    ensures var r := ProcessTicket(request, svc);
      && (|r.calls| >= 2 <==>
            && Truthy(RecordId(request)) && svc.fetch.status == 200
            && Truthy(Attachments(svc)) && FirstUrl(Attachments(svc)).Some?)
      && (|r.calls| >= 3 <==> |r.calls| >= 2 && Downloaded(svc))
      && (|r.calls| >= 2 ==>
            && svc.fetch.status == 200 && Truthy(Attachments(svc)) && FirstUrl(Attachments(svc)).Some?
            && r.calls[1] == DownloadPdf(FirstUrl(Attachments(svc)).value))
      && (Truthy(RecordId(request)) && svc.fetch.status == 200 && Truthy(Attachments(svc))
          && FirstUrl(Attachments(svc)).None? ==>
            r == Outcome(Response(500, Unhandled(AttachmentShape)), [FetchRecord(RecordId(request))]))
      && (|r.calls| >= 2 && svc.download.status != 200 ==> r == Outcome(Reject(DownloadFailed), r.calls[..2]))
      && (|r.calls| >= 2 && svc.download.status == 200 && svc.download.pages.None? ==>
            r == Outcome(Response(500, Unhandled(NotAPdf)), r.calls[..2]))
      && (|r.calls| >= 3 ==>
            && Downloaded(svc)
            && r.calls[2] == Complete(TicketText(svc.fetch.fields), ConcatPages(svc.download.pages.value)))
  {
  }

  /** The handler's returns once the model has been asked: an exception from
      the model ends the request with the inference error; a reply that
      decodes to something other than an object crashes it; otherwise the
      sanitised decoded reply (`{}` for an undecodable one) is written back,
      and the PATCH status decides between success and the update error. */
  lemma ModelReturns(request: map<string, Value>, svc: Services)
    ensures var r := ProcessTicket(request, svc);
      && (|r.calls| >= 3 && svc.completion.Failure? ==>
            r == Outcome(Reject(InferenceFailed(svc.completion.error)), r.calls[..3]))
      && (|r.calls| >= 3 && svc.completion.Success? && !Writable(svc) ==>
            r == Outcome(Response(500, Unhandled(NotAnObject)), r.calls[..3]))
      && (|r.calls| >= 3 && Writable(svc) ==>
            && |r.calls| == 4 && r.calls[3] == UpdateRecord(RecordId(request), WrittenFields(svc))
            && (r.response.status == 200 <==> svc.update.status == 200)
            && (svc.update.status != 200 ==> r.response == Reject(UpdateFailed(svc.update.text))))
      && (|r.calls| >= 3 && ReplyUndecodable(svc) ==>
            |r.calls| == 4 && r.calls[3] == UpdateRecord(RecordId(request), map[]))
  {
  }

  /** The handler succeeds exactly when every step went well, and then it
      returns the sanitised decoded reply, which is what it wrote back. */
  lemma SucceedsExactly(request: map<string, Value>, svc: Services)
    ensures var r := ProcessTicket(request, svc);
      && (r.response.status == 200 <==>
            && Truthy(RecordId(request)) && svc.fetch.status == 200
            && Truthy(Attachments(svc)) && FirstUrl(Attachments(svc)).Some?
            && Downloaded(svc) && Writable(svc) && svc.update.status == 200)
      && (r.response.status == 200 ==>
            && r.response == Response(200, Processed(WrittenFields(svc)))
            && r.calls[3] == UpdateRecord(RecordId(request), WrittenFields(svc)))
  {
  }
}

=== FILE: wrappers.dfy ===
/** `Option` and `Result`, used across the model. */
module Wrappers {

  /** A value that may be absent (Python's `None`). */
  datatype Option<+T> = None | Some(value: T)

  /** Either a value or an error description (a raised exception). */
  datatype Result<+R, +E> = Success(value: R) | Failure(error: E)
}
